=== FILE: README.md ===
# Search request pipeline, modelled in Dafny

This project models the core of a search gateway written in Rust (actix-web,
serde_json, redis-rs, reqwest). The model has three parts:

- **The query-string compiler** (`to_simple_qs`, `is_quoted`, `escape_special`)
  and the request-body builder `build_search_query`, in
  `search/src/api/utility/mod.rs`. These live in `Utility.dfy`. Worked inputs
  are in `Examples.dfy`.
- **The `GET /search` handler and the cursor validator `is_valid_search_after`**,
  in `search/src/api/search.rs`, modelled in `Search.dfy`. This covers:
  - the guard prefix (whitespace collapse, the three 400 answers, the offset
    default, the cache key);
  - the hit extraction;
  - the handler's use of the cache.
- **The Redis helpers and the cache-aside wrapper `async_cache_as_json`**, in
  `search/src/api/utility/cache.rs`, modelled in `Cache.dfy`. Redis is a class
  with three parts:
  - a map of entries, which the methods update;
  - the server clock in seconds, fixed for one request;
  - a flag saying whether the connection works.

Supporting modules:
- `Wrappers.dfy`: `Option`.
- `Json.dfy`: an abstract `serde_json::Value`. Its floats may be NaN or
  infinite, which serde_json's own `Number` cannot hold, so the model's
  `Value` is a superset of serde's. On a value serde really produces, the
  finiteness test in `is_valid_search_after` never fails
  (`SearchApi.CursorAcceptedExactly`).
- `RustText.dfy`: the Rust standard-library behaviours the core relies on.
  These are `char::is_whitespace`, `str::len` in UTF-8 bytes,
  `eq_ignore_ascii_case`, and `str::parse` for `i32` and `usize`.

Each routine that loops or updates state is a method proved equal to a
specification function:
- `ToSimpleQs` equals `SimpleQs`;
- `EscapeSpecial` equals `Escaped`;
- `BuildSearchQuery` equals `RequestBody`;
- `IsValidSearchAfter` equals `CursorAccepted`;
- the Redis methods equal `AfterSet` and `Lookup`.

The lemmas then state what the source promises about those functions.

Four points where the code's behaviour may surprise a reader. The model follows
the code in each case:

- **Quoted phrases are split.** `split_whitespace` runs before `is_quoted`, so
  a phrase holding a space never reaches the quoted branch. For plain words `a`
  and `b`, the input `"a b"` compiles to `"\"a" AND "b\""`: each half keeps one
  quote, and that quote is escaped (`UtilityExamples.QuotedPhraseIsSplit`).
  Only a quoted single word passes through verbatim
  (`UtilityExamples.QuotedWordPassesThrough`).
- **Collapsing does not trim.** `\s+` is replaced by one space, and that is
  all. Leading and trailing spaces stay in the collapsed text and so in the
  cache key. The compiled query drops them, because `to_simple_qs` splits on
  whitespace. So `s=" a"` and `s="a"` send the same request body but are
  cached under different keys (`SearchApi.SpacingSplitsCacheKey`).
- **The size check reads the search text.** `s`, not `f`, is parsed as an
  `i32` and compared with 20. Text that does not parse counts as 0.
- **Two writes, and the second one wins.** On a miss, the cache key is written
  twice:
  - the closure writes it for 1440 seconds (`search.rs:117`);
  - `async_cache_as_json` then writes the same value again for 86400 seconds
    (`cache.rs:88`).

  The second write replaces the first, so a fresh result stays cached for
  86400 seconds (`SearchApi.Search`, via `Cache.LastSetWins`).

## Model

| member | source | states |
|---|---|---|
| RustText.ByteLen | search/src/api/utility/mod.rs:105 | the UTF-8 byte length is at least the number of characters, and at least the width of the first character |
| RustText.IsWhitespace | search/src/api/utility/mod.rs:74 | the Unicode `White_Space` set that `split_whitespace` and the regex class `\s` (search.rs:47) split on; its ASCII part is stated by `RustText.AsciiWhitespace` |
| RustText.AsciiWhitespace | search/src/api/search.rs:47 | among ASCII characters, whitespace is exactly tab, line feed, vertical tab, form feed, carriage return and space |
| RustText.EqIgnoreAsciiCase | search/src/api/utility/mod.rs:78 | `eq_ignore_ascii_case`: same length and equal after ASCII lower-casing, position by position |
| RustText.EqIgnoreAsciiCaseByteLen | search/src/api/utility/mod.rs:78 | texts equal up to ASCII case have the same UTF-8 byte length, so the byte-length test inside `eq_ignore_ascii_case` never decides differently |
| RustText.ParseI32 | search/src/api/search.rs:55 | a parsed `i32` lies in [-2^31, 2^31-1]; the empty text never parses |
| RustText.ParseI32Digits | search/src/api/search.rs:55 | a digit string within range parses to its decimal value |
| RustText.ParseUsize | search/src/api/search.rs:71 | a parsed `usize` is at most 2^64-1; text starting with `-` never parses |
| Json.AsF64 | search/src/api/search.rs:146 | `as_f64` succeeds exactly on numbers; an integer becomes a finite double |
| Json.AsArray | search/src/api/search.rs:100 | `as_array` gives the items exactly when the value is an array, else `None` |
| Json.AsObject | search/src/api/search.rs:104-106 | `as_object` gives the members exactly when the value is an object, else `None` |
| Json.AsStr | search/src/api/search.rs:107-108 | `as_str` gives the text exactly when the value is a string, else `None` |
| Json.Get | search/src/api/search.rs:105-109 | `Map::get` gives the member exactly when the key is present, else `None` |
| Json.Index | search/src/api/search.rs:99 | `value["key"]` is the member exactly when the value is an object holding the key, and `null` otherwise |
| Json.RepresentableElements | search/src/api/search.rs:146-147 | every element of a parsed JSON array is representable; a number among them is finite |
| Utility.WordLen | search/src/api/utility/mod.rs:74 | the leading word is whitespace-free and ends at whitespace or the end of the text |
| Utility.Tokens | search/src/api/utility/mod.rs:74-75 | `split_whitespace` yields non-empty, whitespace-free tokens, so the `trim` at line 75 changes nothing |
| Utility.TokensEmpty | search/src/api/utility/mod.rs:74 | no tokens exactly when the text is all whitespace |
| Utility.TokensWord | search/src/api/utility/mod.rs:74 | a whitespace-free word followed by whitespace or the end is the next token |
| Utility.TokensSkip | search/src/api/utility/mod.rs:74 | leading whitespace produces no token |
| Utility.TokensCons | search/src/api/utility/mod.rs:74 | a non-whitespace character is a token of its own before whitespace or the end, and otherwise joins the next token |
| Utility.EscapeSpecial | search/src/api/utility/mod.rs:109-127 | the loop yields `Escaped(s)`: a backslash before each of the 22 reserved characters |
| Utility.EscapedConcat | search/src/api/utility/mod.rs:119-124 | escaping works character by character: it distributes over concatenation |
| Utility.EscapedLength | search/src/api/utility/mod.rs:119-124 | output length = input length + the number of reserved characters |
| Utility.UnescapeEscaped | search/src/api/utility/mod.rs:119-124 | removing the inserted backslashes restores the input (no loss, no reordering) |
| Utility.EscapedIsWellEscaped | search/src/api/utility/mod.rs:111-124 | no reserved character in the output is left unescaped |
| Utility.EscapedUnescape | search/src/api/utility/mod.rs:111-124 | every well-escaped text is the escaping of its unescaping, so escaping is a bijection onto well-escaped text |
| Utility.PlainEscapesToItself | search/src/api/utility/mod.rs:119-124 | text without reserved characters is unchanged |
| Utility.DigitsEscapeToThemselves | search/src/api/utility/mod.rs:90-91 | an all-digit token escapes to itself |
| Utility.IsQuoted | search/src/api/utility/mod.rs:103-106 | `is_quoted`: at least two UTF-8 bytes, first and last character `"`; `Utility.QuotedByChars` restates it in characters |
| Utility.QuotedByChars | search/src/api/utility/mod.rs:104-106 | the byte-length test agrees with "at least two characters, first and last `\"`"; a lone `"` is not quoted |
| Utility.OrSpellings | search/src/api/utility/mod.rs:78 | the operator test holds exactly for `or`, `oR`, `Or`, `OR`; the "not quoted" half never decides |
| Utility.ToSimpleQs | search/src/api/utility/mod.rs:70-101 | the loop with `need_and` yields the positional specification `SimpleQs` |
| Utility.AndPlacement | search/src/api/utility/mod.rs:77-97 | ` AND ` precedes a token exactly when there is a previous token and neither is `OR` |
| Utility.PieceNonEmpty | search/src/api/utility/mod.rs:77-97 | every token contributes a non-empty piece |
| Utility.BlankCompilesToEmpty | search/src/api/utility/mod.rs:70-101 | the result is empty exactly when the input is all whitespace |
| Utility.NoOrJoinsWithAnd | search/src/api/utility/mod.rs:84-97 | without `OR` the result is the token contributions joined by ` AND ` |
| Utility.EmitCases | search/src/api/utility/mod.rs:88-94 | a quoted token passes verbatim; any other token is escaped and quoted; a digit token is quoted as it is |
| Utility.Skeleton | search/src/api/utility/mod.rs:15-48 | the skeleton is an object without `from` or `search_after` |
| Utility.CursorField | search/src/api/utility/mod.rs:57-61 | the cursor's parsed value, or `null` when it does not parse (`unwrap_or_else`); the null fallback is proved in `Utility.PagingIsExclusive` |
| Utility.BuildSearchQuery | search/src/api/utility/mod.rs:7-68 | compile, take the skeleton, insert one paging field: equals `RequestBody` |
| Utility.PagingIsExclusive | search/src/api/utility/mod.rs:50-65 | `search_after` (the parsed cursor, or `null`) iff a cursor is given; `from` (the offset) iff none is |
| Utility.FixedRequestShape | search/src/api/utility/mod.rs:12-48 | size 20, the three-key sort, `track_total_hits` false, and the query text is the compiled input |
| Utility.PagingTouchesNothingElse | search/src/api/utility/mod.rs:51-65 | apart from the paging field, the body is exactly the skeleton |
| UtilityExamples.ImplicitAnd | search/src/api/utility/mod.rs:70-101 | two letters separated by a space, such as `a b`, compile to `"a" AND "b"` |
| UtilityExamples.ExplicitOr | search/src/api/utility/mod.rs:70-101 | for letters, `a OR b` compiles to `"a" OR "b"`, with no ` AND ` on either side |
| UtilityExamples.ReservedCharacterEscaped | search/src/api/utility/mod.rs:108-127 | `a+b` compiles to `"a\+b"` |
| UtilityExamples.QuotedWordPassesThrough | search/src/api/utility/mod.rs:88-89 | `"ab" c` compiles to `"ab" AND "c"` |
| UtilityExamples.QuotedPhraseIsSplit | search/src/api/utility/mod.rs:74-94 | for plain words a, b, the phrase `"a b"` compiles to `"\"a" AND "b\""`, not to the phrase |
| Cache.Lookup | search/src/api/utility/cache.rs:49-65 | a key reads as live only if it is present, and then its stored value is returned |
| Cache.Redis.constructor | search/src/api/utility/cache.rs:21-28 | a connection over the given entries, clock and link state |
| Cache.Redis.SetCache | search/src/api/utility/cache.rs:33-47 | SETEX with an expiry `ttl` seconds on, or SET; a refused or failed write leaves the store unchanged |
| Cache.Redis.HasCache | search/src/api/utility/cache.rs:49-55 | true iff the link works and the key is live |
| Cache.Redis.GetCache | search/src/api/utility/cache.rs:57-65 | the stored value when the key is live and the link works, else `""` |
| Cache.Redis.AsyncCacheAsJson | search/src/api/utility/cache.rs:74-91 | hit: the stored value, store unchanged. Miss: `compute` runs once, its writes apply, then the result is written for `ttl_secs` and returned. Panic: no value and no write by the wrapper, while the writes `compute` made before panicking stay |
| Cache.SetThenLookup | search/src/api/utility/cache.rs:40-43 | after SETEX k v t, k reads v strictly before `now + t` and nothing afterwards; t = 0 is refused |
| Cache.SetForeverThenLookup | search/src/api/utility/cache.rs:42 | after SET without expiry, the key reads its value at every later second |
| Cache.SetTouchesOnlyItsKey | search/src/api/utility/cache.rs:33-47 | a write changes no other key |
| Cache.FailedSetIsNoOp | search/src/api/utility/cache.rs:44-46 | a failed write is logged and dropped: the store is unchanged |
| Cache.LastSetWins | search/src/api/utility/cache.rs:33-47 | of two accepted writes to one key, the second determines the entry |
| Cache.SetsTouchOnlyTheirKeys | search/src/api/utility/cache.rs:33-47 | a batch of writes leaves every key it does not name as it was |
| SearchApi.ParamsOrDefault | search/src/api/search.rs:45-46 | decoded parameters are used as they are; a query string that does not decode reads as empty `s` and `f` and no `sa` |
| SearchApi.UndecodableQueryRejected | search/src/api/search.rs:45-54 | a query string that does not decode is answered "Empty search parameter is not allowed." |
| SearchApi.CollapseFrom | search/src/api/search.rs:47-48 | the `\s+` replacement, carrying whether a whitespace run is open; the result is never longer than the input |
| SearchApi.Collapse | search/src/api/search.rs:47-48 | the whole replacement: it keeps every word, in order, unchanged (`Tokens` of the result equal those of the input) |
| SearchApi.CollapseFromKeepsTokens | search/src/api/search.rs:47-48 | collapsing from either run state leaves the words of the text unchanged |
| SearchApi.CollapseKeepsTokens | search/src/api/search.rs:47-48 | collapsing keeps the words, so the compiled query of the collapsed text equals that of the raw text |
| SearchApi.CollapseFromShape | search/src/api/search.rs:47-48 | the collapsed text has no two adjacent whitespace characters, and all its whitespace is spaces; inside a run it does not start with whitespace |
| SearchApi.CollapseFromEmpty | search/src/api/search.rs:47-48 | the collapse is empty exactly when the input is empty or, inside a run, all whitespace |
| SearchApi.CollapseShape | search/src/api/search.rs:47-48 | the same two facts for the whole collapse |
| SearchApi.CollapseFromIdempotent | search/src/api/search.rs:47-48 | collapsing the result again with the same run flag changes nothing |
| SearchApi.CollapseIdempotent | search/src/api/search.rs:47-48 | collapsing twice equals collapsing once |
| SearchApi.CollapseFromKeepsWord | search/src/api/search.rs:47-48 | text with a non-whitespace character still has one after collapsing |
| SearchApi.CollapseBlank | search/src/api/search.rs:47-54 | the collapse is `""` or `" "` exactly when the input is all whitespace |
| SearchApi.IsValidSearchAfter | search/src/api/search.rs:129-154 | true iff the text parses to an array of exactly three finite numbers; the loop copies each into `nums` |
| SearchApi.UnparseableCursorRejected | search/src/api/search.rs:131-134 | non-JSON text is refused |
| SearchApi.WrongShapeCursorRejected | search/src/api/search.rs:137-140 | a non-array, or an array not of length 3, is refused |
| SearchApi.NonNumberCursorRejected | search/src/api/search.rs:146-148 | a string, bool, null, array or object element is refused |
| SearchApi.CursorAcceptedExactly | search/src/api/search.rs:129-154 | with an RFC 8259 parser, accepted iff an array of three numbers: the finiteness test never rejects |
| SearchApi.Guard | search/src/api/search.rs:47-73 | admitted iff `Admissible`: `s` is not blank, `s` does not parse as an `i32` above 20, and any cursor passes the validator; a refusal carries one of the three messages; an admitted search compiles to the same query as the raw `s`, and keeps the cursor |
| SearchApi.BlankSearchRejected | search/src/api/search.rs:47-54 | all-whitespace `s` is answered "Empty search parameter is not allowed." before any other check |
| SearchApi.SearchSizeCheck | search/src/api/search.rs:55-60 | past the empty check, the size message is given iff `s` parses as an `i32` above 20 |
| SearchApi.CursorCheck | search/src/api/search.rs:61-68 | past the first two checks, the cursor message is given iff a cursor is present and the validator refuses it |
| SearchApi.AdmittedRequest | search/src/api/search.rs:45-73 | an admissible request is admitted and carries the collapsed text, `f` as a `usize` or 0, the validated cursor, and the key `collapsed + "-" + raw f` |
| SearchApi.CacheKeyIgnoresCursor | search/src/api/search.rs:73 | admissible requests that differ only in the cursor are both admitted and share one cache key |
| SearchApi.SpacingSplitsCacheKey | search/src/api/search.rs:47-73 | `s=" a"` and `s="a"` are both admitted, build the same request body, and get different cache keys |
| SearchApi.AdmittedQueryNonEmpty | search/src/api/search.rs:47-54 | an admissible request is admitted and never compiles to an empty query |
| SearchApi.ValidatedCursorInBody | search/src/api/search.rs:61-68 | an admissible request with a cursor is admitted, and its cursor reaches the body as an array of three finite numbers, never as `null`, and without `from` |
| SearchApi.HitOf | search/src/api/search.rs:103-111 | a hit converts iff it is an object with `highlight` and `sort` and an object `_source` whose `url` and `title` are strings; the result carries those values and the encoded `sort` |
| SearchApi.CollectHits | search/src/api/search.rs:99-112 | results exist iff every hit converts; then they have the same length and order, each the conversion of its hit |
| SearchApi.HitList | search/src/api/search.rs:99-101 | a non-empty hit list is exactly the array found at `hits.hits` |
| SearchApi.ExtractHits | search/src/api/search.rs:99-112 | over the array at `hits.hits`: results iff every hit converts, then one per hit, in the backend's order |
| SearchApi.MissingHitsGiveNoResults | search/src/api/search.rs:99-101 | a response without an array at `hits.hits` yields an empty result list |
| SearchApi.ResultJson | search/src/api/search.rs:33-39 | a result serialises to an object with exactly the members `highlight`, `url`, `title` and `sort`, and they carry the result's values: `highlight` as it is, and `url`, `title` and `sort` as JSON strings |
| SearchApi.HitsDocument | search/src/api/search.rs:114-116 | `{"hits": [...]}` with exactly one member and one serialised result per hit, in order |
| SearchApi.Fetch | search/src/api/search.rs:75-119 | the closure returns iff the backend answers and every hit converts; it then returns the encoded hits document after one write of it under the cache key for 1440 seconds; a panic comes before any write |
| SearchApi.Search | search/src/api/search.rs:41-126 | refused: 400 with its message, cache untouched. Hit: 200 with the stored text, cache untouched. Miss: 200 with the fresh result stored for 86400 seconds (when the link works); a panic leaves no response and no write |

## Left out

- HTTP transport, TLS settings and timeouts (`search.rs:77-94`). The backend is a parameter `string -> Option<Value>`. `None` stands for any send or decode failure, which panics at an `unwrap`.
- JSON text parsing and serialisation are parameters (`parse`, `encode`). `ParserSound` assumes only that a parser yields finite numbers, as RFC 8259 section 6 allows.
- Query-string deserialisation (`web::Query::from_query`) is a parameter. `SearchApi.Search` takes `Option<Params>`, and `None` stands for a query string that does not deserialise.
- `Json.AsF64`: integer-to-double rounding is not modelled. Only finiteness matters to the validator, and a converted integer is always finite.
- `SearchApi.Search`: a panic in the closure is modelled as "no response". What actix-web then sends (a dropped connection or a 500) is not modelled.
- `Utility.CursorField` and `Utility.IsQuoted` carry no postcondition of their own. Their behaviour is stated by `Utility.PagingIsExclusive` and `Utility.QuotedByChars`.
- `Cache.Redis`: a transport failure is modelled per request (the `online` flag), not per command. The server clock does not advance within a request, so a key cannot expire between `EXISTS` and `GET`.
- `Cache.Redis.SetCache`: Redis's upper bound on expiry times is not modelled. Neither is the `usize` to `u64` conversion at `cache.rs:41`, which cannot fail on a 64-bit target.
- Concurrency: two requests racing on one key (both missing and both computing) is not modelled. Neither is the logger (`eprintln!`).
- `redis_conn` (`cache.rs:21-28`) opens the connection. It is represented only by `Cache.Redis.constructor`.
- The server setup, configuration loading and front end are not part of this model.

=== FILE: Cache.dfy ===
/**
 * `api::utility::cache` (search/src/api/utility/cache.rs): the Redis helpers
 * and the cache-aside wrapper `async_cache_as_json`.
 *
 * Redis is modelled as a class holding the key/value entries, the server clock
 * (in seconds) at the time of the request, and whether the connection works.
 * When it does not, every command fails and each helper falls back the way
 * the Rust code does: `exists` reads as false, `get` as the empty string, and
 * a failed `set` is logged and dropped.
 */
module Cache {
  import opened Wrappers

  /** A stored string and, when it was set with an expiry, the second at
      which it lapses. */
  datatype Entry = Entry(value: string, expiresAt: Option<nat>)

  /** One `set_cache` call: key, value and optional time-to-live in seconds. */
  datatype SetCall = SetCall(key: string, value: string, ttl: Option<nat>)

  /** What running a `compute` closure amounts to: the `set_cache` calls it
      issues, in order, and then either the string it returns or a panic.
      Writes made before a panic have reached the server and stay. */
  datatype Run = Returned(value: string, sets: seq<SetCall>) | Panicked(sets: seq<SetCall>)

  /** The value a live key holds at second `now`: present, and either without
      expiry or not yet expired. */
  function Lookup(entries: map<string, Entry>, now: nat, key: string): (r: Option<string>)
    ensures r.Some? ==> key in entries && r.value == entries[key].value
    ensures key !in entries ==> r.None?
  {
    if key in entries && (entries[key].expiresAt.None? || now < entries[key].expiresAt.value)
    then Some(entries[key].value)
    else None
  }

  /** Redis refuses `SETEX` with a zero expiry ("invalid expire time"). */
  predicate ExpiryAccepted(ttl: Option<nat>) {
    ttl != Some(0)
  }

  /** The entries after `set_cache(key, value, ttl)` at second `now`: a write
      the server accepts replaces the entry, with an expiry `ttl` seconds on
      when one is given; a failed write changes nothing. */
  function AfterSet(entries: map<string, Entry>, now: nat, online: bool, key: string, value: string, ttl: Option<nat>)
    : map<string, Entry>
  {
    if online && ExpiryAccepted(ttl) then
      entries[key := Entry(value, if ttl.Some? then Some(now + ttl.value) else None)]
    else entries
  }

  /** The entries after a sequence of `set_cache` calls, in order. */
  function AfterSets(entries: map<string, Entry>, now: nat, online: bool, sets: seq<SetCall>)
    : map<string, Entry>
    decreases |sets|
  {
    if sets == [] then entries
    else
      var last := sets[|sets| - 1];
      AfterSet(AfterSets(entries, now, online, sets[..|sets| - 1]), now, online, last.key, last.value, last.ttl)
  }

  class Redis {
    var entries: map<string, Entry>
    const now: nat
    const online: bool

    constructor (entries: map<string, Entry>, now: nat, online: bool)
      ensures this.entries == entries && this.now == now && this.online == online
    {
      this.entries := entries;
      this.now := now;
      this.online := online;
    }

    /** `set_cache`: `SETEX` with a time-to-live, plain `SET` without one; an
        error is swallowed, so the call never fails. */
    method SetCache(key: string, value: string, ttl: Option<nat>)
      modifies this
      ensures entries == AfterSet(old(entries), now, online, key, value, ttl)
    {
      if online {
        match ttl {
          case Some(secs) =>
            if secs != 0 {
              entries := entries[key := Entry(value, Some(now + secs))];
            }
          case None =>
            entries := entries[key := Entry(value, None)];
        }
      }
    }

    /** `has_cache`: `EXISTS`, read as false when the command fails. */
    method HasCache(key: string) returns (exists_: bool)
      ensures exists_ <==> online && Lookup(entries, now, key).Some?
    {
      exists_ := online && Lookup(entries, now, key).Some?;
    }

    /** `get_cache`: `GET`, read as the empty string when the key is absent or
        expired or the command fails. */
    method GetCache(key: string) returns (value: string)
      ensures online && Lookup(entries, now, key).Some? ==> value == entries[key].value
      ensures !online || Lookup(entries, now, key).None? ==> value == ""
    {
      if online {
        value := Lookup(entries, now, key).GetOr("");
      } else {
        value := "";
      }
    }

    /** `async_cache_as_json`: on a hit return the stored value and touch
        nothing; on a miss run `compute` once (its own `set_cache` calls take
        effect), store its result for `ttlSecs` seconds and return it. A panic
        in `compute` unwinds through the call: no value and no write of ours,
        but the writes `compute` made before it stay. `None` stands for that
        panic. */
    method AsyncCacheAsJson(key: string, compute: () -> Run, ttlSecs: nat) returns (r: Option<string>)
      modifies this
      ensures var hit := online && Lookup(old(entries), now, key).Some?;
        hit ==> r == Lookup(old(entries), now, key) && entries == old(entries)
      ensures var hit := online && Lookup(old(entries), now, key).Some?;
        !hit && compute().Panicked? ==>
          r.None? && entries == AfterSets(old(entries), now, online, compute().sets)
      ensures var hit := online && Lookup(old(entries), now, key).Some?;
        !hit && compute().Returned? ==>
          && r == Some(compute().value)
          && entries == AfterSet(AfterSets(old(entries), now, online, compute().sets),
                                 now, online, key, compute().value, Some(ttlSecs))
    {
      var hit := HasCache(key);
      if hit {
        var value := GetCache(key);
        r := Some(value);
      } else {
        var run := compute();
        // the closure's own `set_cache` calls, as it issues them
        entries := AfterSets(entries, now, online, run.sets);
        if run.Panicked? {
          r := None;
        } else {
          SetCache(key, run.value, Some(ttlSecs));
          r := Some(run.value);
        }
      }
    }
  }

  /** Set-then-get: after `set_cache(k, v, Some(t))` succeeds at second `now`,
      reading `k` at any second before `now + t` gives `v`, and from then on
      gives nothing; a zero `t` is refused and leaves the old entry. */
  lemma SetThenLookup(entries: map<string, Entry>, now: nat, key: string, value: string, ttl: nat, later: nat)
    ensures Lookup(AfterSet(entries, now, true, key, value, Some(ttl)), later, key)
         == if ttl == 0 then Lookup(entries, later, key)
            else if later < now + ttl then Some(value)
            else None
  {
  }

  /** Without a time-to-live the value stays readable at every later second. */
  lemma SetForeverThenLookup(entries: map<string, Entry>, now: nat, key: string, value: string, later: nat)
    ensures Lookup(AfterSet(entries, now, true, key, value, None), later, key) == Some(value)
  {
  }

  /** `set_cache(k, …)` changes entry `k` only, whether or not it succeeds. */
  lemma SetTouchesOnlyItsKey(entries: map<string, Entry>, now: nat, online: bool, key: string, value: string,
                             ttl: Option<nat>, other: string, later: nat)
    requires other != key
    ensures other in AfterSet(entries, now, online, key, value, ttl) <==> other in entries
    ensures Lookup(AfterSet(entries, now, online, key, value, ttl), later, other) == Lookup(entries, later, other)
  {
  }

  /** A failed command (connection down) leaves the store as it was. */
  lemma FailedSetIsNoOp(entries: map<string, Entry>, now: nat, key: string, value: string, ttl: Option<nat>)
    ensures AfterSet(entries, now, false, key, value, ttl) == entries
  {
  }

  /** Two successive writes to one key: the second one wins when the server
      accepts it. */
  lemma LastSetWins(entries: map<string, Entry>, now: nat, online: bool, key: string,
                    first: string, firstTtl: Option<nat>, second: string, secondTtl: Option<nat>)
    requires ExpiryAccepted(secondTtl)
    ensures AfterSet(AfterSet(entries, now, online, key, first, firstTtl), now, online, key, second, secondTtl)
         == AfterSet(entries, now, online, key, second, secondTtl)
  {
  }

  /** A batch of writes leaves alone every key none of them names. */
  lemma {:induction false} SetsTouchOnlyTheirKeys(entries: map<string, Entry>, now: nat, online: bool,
                                                  sets: seq<SetCall>, other: string)
    requires forall i | 0 <= i < |sets| :: sets[i].key != other
    decreases |sets|
    ensures (other in AfterSets(entries, now, online, sets)) == (other in entries)
    ensures other in entries ==> AfterSets(entries, now, online, sets)[other] == entries[other]
  {
    if sets != [] {
      SetsTouchOnlyTheirKeys(entries, now, online, sets[..|sets| - 1], other);
    }
  }
}

=== FILE: Examples.dfy ===
/**
 * Worked inputs for `to_simple_qs`, computed from the model. The last one
 * shows that a quoted phrase containing a space does not pass through whole:
 * `split_whitespace` cuts it before `is_quoted` is asked, so each half keeps
 * one quote and that quote is escaped.
 */
module UtilityExamples {
  import opened RustText
  import opened Utility

  lemma TokensOfTwoWords(a: string, b: string)
    requires a != [] && NoWhitespace(a) && b != [] && NoWhitespace(b)
    ensures Tokens(a + " " + b) == [a, b]
  {
    assert IsWhitespace(' ');
    assert a + " " + b == a + ([' '] + b);
    TokensWord(a, [' '] + b);
    TokensSkip(' ', b);
    TokensWord(b, []);
    assert b + [] == b;
  }

  lemma TokensOfThreeWords(a: string, b: string, c: string)
    requires a != [] && NoWhitespace(a) && b != [] && NoWhitespace(b) && c != [] && NoWhitespace(c)
    ensures Tokens(a + " " + b + " " + c) == [a, b, c]
  {
    assert IsWhitespace(' ');
    assert a + " " + b + " " + c == a + ([' '] + (b + ([' '] + c)));
    TokensWord(a, [' '] + (b + ([' '] + c)));
    TokensSkip(' ', b + ([' '] + c));
    TokensWord(b, [' '] + c);
    TokensSkip(' ', c);
    TokensWord(c, []);
    assert c + [] == c;
  }

  /** A word without quotes or reserved characters that is not `OR` is
      quoted as it is. */
  lemma PlainWord(t: string)
    requires t != [] && t[0] != '"' && !EqIgnoreAsciiCase(t, "OR")
    requires forall i | 0 <= i < |t| :: !IsSpecial(t[i])
    ensures !IsOrOperator(t) && Emit(t) == "\"" + t + "\""
  {
    PlainEscapesToItself(t);
  }

  /** A one-letter word is quoted as it is. */
  lemma Letter(c: char)
    requires 'a' <= c <= 'z'
    ensures !IsOrOperator([c]) && Emit([c]) == ['"', c, '"']
  {
    assert !IsSpecial(c);
    PlainWord([c]);
  }

  lemma CompileTwo(a: string, b: string)
    requires !IsOrOperator(a) && !IsOrOperator(b)
    ensures Compiled([a, b], 2) == Emit(a) + " AND " + Emit(b)
  {
    var ts := [a, b];
    assert Compiled(ts, 1) == Emit(a);
  }

  lemma CompileOr(a: string, b: string)
    requires !IsOrOperator(a) && !IsOrOperator(b)
    ensures Compiled([a, "OR", b], 3) == Emit(a) + " OR " + Emit(b)
  {
    var ts := [a, "OR", b];
    OrSpellings("OR");
    assert Compiled(ts, 1) == Emit(a);
    assert Compiled(ts, 2) == Emit(a) + " OR ";
  }

  /** Two letters separated by a space are joined with ` AND `: `a b`
      compiles to `"a" AND "b"`. */
  lemma ImplicitAnd(x: char, y: char)
    requires 'a' <= x <= 'z' && 'a' <= y <= 'z'
    ensures SimpleQs([x, ' ', y]) == ['"', x, '"'] + " AND " + ['"', y, '"']
  {
    assert [x, ' ', y] == [x] + " " + [y];
    TokensOfTwoWords([x], [y]);
    Letter(x);
    Letter(y);
    CompileTwo([x], [y]);
  }

  /** An explicit `OR` stands between two letters with no ` AND ` on either
      side: `a OR b` compiles to `"a" OR "b"`. */
  lemma ExplicitOr(x: char, y: char)
    requires 'a' <= x <= 'z' && 'a' <= y <= 'z'
    ensures SimpleQs([x] + " OR " + [y]) == ['"', x, '"'] + " OR " + ['"', y, '"']
  {
    assert [x] + " OR " + [y] == [x] + " " + "OR" + " " + [y];
    TokensOfThreeWords([x], "OR", [y]);
    Letter(x);
    Letter(y);
    CompileOr([x], [y]);
  }

  lemma WordAPlusB()
    ensures !IsOrOperator("a+b") && Emit("a+b") == "\"a\\+b\""
  {
    assert Escaped("a+b") == "a\\+b" by {
      assert "a+b" == "a" + "+b";
      EscapedConcat("a", "+b");
      assert "+b" == "+" + "b";
      EscapedConcat("+", "b");
      assert !IsSpecial('a') && !IsSpecial('b') && IsSpecial('+');
      PlainEscapesToItself("a");
      PlainEscapesToItself("b");
    }
    QuotedByChars("a+b");
  }

  /** `a+b` compiles to `"a\+b"`. */
  lemma ReservedCharacterEscaped()
    ensures SimpleQs("a+b") == "\"a\\+b\""
  {
    assert IsWhitespace(' ');
    TokensWord("a+b", []);
    assert "a+b" + [] == "a+b";
    WordAPlusB();
    var ts := ["a+b"];
    assert Compiled(ts, 1) == Piece(ts, 0);
  }

  lemma WordQuotedAB()
    ensures !IsOrOperator("\"ab\"") && Emit("\"ab\"") == "\"ab\""
  {
    QuotedByChars("\"ab\"");
  }

  lemma TokensQuotedWord()
    ensures Tokens("\"ab\" c") == ["\"ab\"", "c"]
  {
    assert "\"ab\" c" == "\"ab\"" + " " + "c";
    TokensOfTwoWords("\"ab\"", "c");
  }

  /** A quoted single word passes through: `"ab" c` compiles to
      `"ab" AND "c"`. */
  lemma QuotedWordPassesThrough()
    ensures SimpleQs("\"ab\" c") == "\"ab\" AND \"c\""
  {
    TokensQuotedWord();
    WordQuotedAB();
    Letter('c');
    CompileTwo("\"ab\"", "c");
  }

  /** A word with no whitespace and no reserved character (so no `"`). */
  predicate PlainToken(t: string) {
    t != [] && NoWhitespace(t) && forall i | 0 <= i < |t| :: !IsSpecial(t[i])
  }

  lemma EscapedQuote()
    ensures Escaped("\"") == "\\\""
  {
    assert IsSpecial('"');
  }

  lemma OpeningQuoteEscaped(a: string)
    requires PlainToken(a)
    ensures Escaped("\"" + a) == "\\\"" + a
  {
    EscapedConcat("\"", a);
    PlainEscapesToItself(a);
    EscapedQuote();
  }

  lemma ClosingQuoteEscaped(b: string)
    requires PlainToken(b)
    ensures Escaped(b + "\"") == b + "\\\""
  {
    EscapedConcat(b, "\"");
    PlainEscapesToItself(b);
    EscapedQuote();
  }

  lemma OpeningQuoteIsWord(a: string)
    requires PlainToken(a)
    ensures !IsQuoted("\"" + a) && !IsOrOperator("\"" + a)
  {
    var t := "\"" + a;
    assert t[|t| - 1] == a[|a| - 1];
    assert !IsSpecial(a[|a| - 1]) && IsSpecial('"');
    QuotedByChars(t);
    assert AsciiLower(t[0]) != AsciiLower('O');
  }

  lemma ClosingQuoteIsWord(b: string)
    requires PlainToken(b)
    ensures !IsQuoted(b + "\"") && !IsOrOperator(b + "\"")
  {
    var t := b + "\"";
    assert t[0] == b[0];
    assert !IsSpecial(b[0]) && IsSpecial('"');
    QuotedByChars(t);
    assert |t| == 2 ==> AsciiLower(t[1]) != AsciiLower('R');
  }

  lemma OpeningQuote(a: string)
    requires PlainToken(a)
    ensures !IsOrOperator("\"" + a) && Emit("\"" + a) == Quote("\\\"" + a)
  {
    OpeningQuoteIsWord(a);
    OpeningQuoteEscaped(a);
  }

  lemma ClosingQuote(b: string)
    requires PlainToken(b)
    ensures !IsOrOperator(b + "\"") && Emit(b + "\"") == Quote(b + "\\\"")
  {
    ClosingQuoteIsWord(b);
    ClosingQuoteEscaped(b);
  }

  lemma QuotedPhraseTokens(a: string, b: string)
    requires PlainToken(a) && PlainToken(b)
    ensures Tokens("\"" + a + " " + b + "\"") == ["\"" + a, b + "\""]
  {
    var first := "\"" + a;
    var second := b + "\"";
    assert "\"" + a + " " + b + "\"" == first + " " + second;
    assert NoWhitespace(first) by {
      forall i | 0 <= i < |first| ensures !IsWhitespace(first[i]) {
        if i > 0 { assert first[i] == a[i - 1]; }
      }
    }
    assert NoWhitespace(second) by {
      forall i | 0 <= i < |second| ensures !IsWhitespace(second[i]) {
        if i < |b| { assert second[i] == b[i]; }
      }
    }
    TokensOfTwoWords(first, second);
  }

  /** A quoted phrase of two words is cut in two at the space: `"a b"`
      compiles to `"\"a" AND "b\""`, not to the phrase itself. */
  lemma QuotedPhraseIsSplit(a: string, b: string)
    requires PlainToken(a) && PlainToken(b)
    ensures SimpleQs("\"" + a + " " + b + "\"") == Quote("\\\"" + a) + " AND " + Quote(b + "\\\"")
  {
    var first := "\"" + a;
    var second := b + "\"";
    QuotedPhraseTokens(a, b);
    OpeningQuote(a);
    ClosingQuote(b);
    CompileTwo(first, second);
  }
}

=== FILE: Json.dfy ===
/**
 * An abstract model of the `serde_json::Value` the search service builds and
 * inspects. Numbers keep serde's split between integers and floats; a float is
 * an abstract IEEE-754 double that may be NaN or infinite, which is what the
 * cursor check in `is_valid_search_after` tests for. serde_json's own `Number`
 * cannot hold NaN or an infinity, so this `Value` is a superset of serde's:
 * on a value serde really produces, that finiteness test never fails (see
 * `Representable`). Text parsing and
 * serialisation are not modelled: they are parameters of the operations that
 * use them (a `string -> Parse` and a `Value -> string` function).
 */
module Json {
  import opened Wrappers

  /** An f64, abstractly: rounding is not modelled, only finiteness. */
  datatype F64 = Finite(r: real) | Infinity(negative: bool) | NaN

  /** `f64::is_finite` */
  predicate IsFinite(x: F64) {
    x.Finite?
  }

  /** serde's `Number`: an integer (u64 or i64) or a float. */
  datatype Number = Int(i: int) | Float(x: F64)

  datatype Value =
    | Null
    | Bool(b: bool)
    | Num(n: Number)
    | Str(s: string)
    | Arr(items: seq<Value>)
    | Obj(fields: map<string, Value>)

  /** Outcome of `serde_json::from_str::<Value>`. */
  datatype Parse = Unparseable | Parsed(value: Value)

  /** `Value::as_f64`: every number converts (an integer to the nearest double,
      rounding not modelled), nothing else does. */
  function AsF64(v: Value): (r: Option<F64>)
    ensures r.Some? <==> v.Num?
    ensures v.Num? && v.n.Int? ==> r == Some(Finite(v.n.i as real))
  {
    match v
    case Num(Int(i)) => Some(Finite(i as real))
    case Num(Float(x)) => Some(x)
    case _ => None
  }

  /** `Value::as_array` */
  function AsArray(v: Value): (r: Option<seq<Value>>)
    ensures r.Some? <==> v.Arr?
    ensures r.Some? ==> v == Arr(r.value)
  {
    if v.Arr? then Some(v.items) else None
  }

  /** `Value::as_object` */
  function AsObject(v: Value): (r: Option<map<string, Value>>)
    ensures r.Some? <==> v.Obj?
    ensures r.Some? ==> v == Obj(r.value)
  {
    if v.Obj? then Some(v.fields) else None
  }

  /** `Value::as_str` */
  function AsStr(v: Value): (r: Option<string>)
    ensures r.Some? <==> v.Str?
    ensures r.Some? ==> v == Str(r.value)
  {
    if v.Str? then Some(v.s) else None
  }

  /** `Map::get` */
  function Get(fields: map<string, Value>, key: string): (r: Option<Value>)
    ensures r.Some? <==> key in fields
    ensures r.Some? ==> fields[key] == r.value
  {
    if key in fields then Some(fields[key]) else None
  }

  /** serde's `value["key"]`: the member of an object, `Null` for anything else. */
  function Index(v: Value, key: string): (r: Value)
    ensures r != Null ==> v.Obj? && key in v.fields && r == v.fields[key]
    ensures v.Obj? && key in v.fields ==> r == v.fields[key]
  {
    if v.Obj? && key in v.fields then v.fields[key] else Null
  }

  /** A value JSON text can denote: section 6 of RFC 8259 has no literal for
      NaN or the infinities, so every number in it is finite. */
  predicate Representable(v: Value) {
    match v
    case Num(Float(x)) => IsFinite(x)
    case Arr(items) => forall i | 0 <= i < |items| :: Representable(items[i])
    case Obj(fields) => forall k | k in fields :: Representable(fields[k])
    case _ => true
  }

  /** The parser only ever yields representable values. */
  ghost predicate ParserSound(parse: string -> Parse) {
    forall text :: parse(text).Parsed? ==> Representable(parse(text).value)
  }

  /** Every element of a parsed array is itself representable. */
  lemma RepresentableElements(v: Value, i: int)
    requires Representable(v) && v.Arr? && 0 <= i < |v.items|
    ensures Representable(v.items[i])
    ensures v.items[i].Num? ==> IsFinite(AsF64(v.items[i]).value)
  {
  }
}

=== FILE: RustText.dfy ===
/**
 * The pieces of Rust's standard library that the search handler's text
 * processing depends on: the Unicode `White_Space` property (shared by
 * `char::is_whitespace`, `str::split_whitespace` and the regex class `\s`),
 * UTF-8 byte lengths (`str::len`), ASCII case folding, and integer parsing by
 * `str::parse::<i32>` and `str::parse::<usize>`.
 */
module RustText {
  import opened Wrappers

  /** Unicode `White_Space`: U+0009..U+000D, U+0020, U+0085, U+00A0, U+1680,
      U+2000..U+200A, U+2028, U+2029, U+202F, U+205F, U+3000. */
  predicate IsWhitespace(c: char) {
    || ('\t' <= c <= '\r')
    || c == ' '
    || c == '\U{85}'
    || c == '\U{A0}'
    || c == '\U{1680}'
    || ('\U{2000}' <= c <= '\U{200A}')
    || c == '\U{2028}'
    || c == '\U{2029}'
    || c == '\U{202F}'
    || c == '\U{205F}'
    || c == '\U{3000}'
  }

  predicate NoWhitespace(s: string) {
    forall i | 0 <= i < |s| :: !IsWhitespace(s[i])
  }

  predicate AllWhitespace(s: string) {
    forall i | 0 <= i < |s| :: IsWhitespace(s[i])
  }

  /** Number of bytes in the UTF-8 encoding of one scalar value. */
  function Utf8Width(c: char): (w: nat)
    ensures 1 <= w <= 4
    ensures w == 1 <==> c as int < 0x80
  {
    if c as int < 0x80 then 1
    else if c as int < 0x800 then 2
    else if c as int < 0x10000 then 3
    else 4
  }

  /** `str::len`: the byte length of the UTF-8 encoding. */
  function ByteLen(s: string): (n: nat)
    ensures n >= |s|
    ensures s != [] ==> n >= Utf8Width(s[0])
  {
    if s == [] then 0 else Utf8Width(s[0]) + ByteLen(s[1..])
  }

  /** `u8::to_ascii_lowercase` lifted to scalar values. */
  function AsciiLower(c: char): char {
    if 'A' <= c <= 'Z' then (c as int + 32) as char else c
  }

  /** `str::eq_ignore_ascii_case`. Comparing the UTF-8 bytes pairwise after
      ASCII folding is the same as comparing the scalar values pairwise,
      because folding never maps a non-ASCII byte to an ASCII one. */
  predicate EqIgnoreAsciiCase(a: string, b: string) {
    |a| == |b| && forall i | 0 <= i < |a| :: AsciiLower(a[i]) == AsciiLower(b[i])
  }

  /** In the ASCII range, `char::is_whitespace` (and the regex class `\s`)
      is exactly tab, line feed, vertical tab, form feed, carriage return and
      space. */
  lemma AsciiWhitespace(c: char)
    requires c as int < 0x80
    ensures IsWhitespace(c) <==> c in "\t\n\U{B}\U{C}\r "
  {
  }

  /** Case-insensitive equality implies equal UTF-8 byte lengths, so the
      byte-length comparison `eq_ignore_ascii_case` starts with never decides
      against two texts that match character by character. */
  lemma {:induction false} EqIgnoreAsciiCaseByteLen(a: string, b: string)
    requires EqIgnoreAsciiCase(a, b)
    decreases |a|
    ensures ByteLen(a) == ByteLen(b)
  {
    if a != [] {
      assert AsciiLower(a[0]) == AsciiLower(b[0]);
      assert Utf8Width(a[0]) == Utf8Width(b[0]);
      assert EqIgnoreAsciiCase(a[1..], b[1..]) by {
        forall i | 0 <= i < |a[1..]| ensures AsciiLower(a[1..][i]) == AsciiLower(b[1..][i]) {
          assert a[1..][i] == a[i + 1] && b[1..][i] == b[i + 1];
        }
      }
      EqIgnoreAsciiCaseByteLen(a[1..], b[1..]);
    }
  }

  predicate IsAsciiDigit(c: char) {
    '0' <= c <= '9'
  }

  predicate AllAsciiDigits(s: string) {
    forall i | 0 <= i < |s| :: IsAsciiDigit(s[i])
  }

  /** The value of a string of decimal digits, most significant first. */
  function DecimalValue(s: string): nat
    requires AllAsciiDigits(s)
  {
    if s == [] then 0
    else 10 * DecimalValue(s[..|s| - 1]) + (s[|s| - 1] as int - '0' as int)
  }

  const I32Min: int := -0x8000_0000
  const I32Max: int := 0x7FFF_FFFF
  const UsizeMax: int := 0xFFFF_FFFF_FFFF_FFFF  // a 64-bit target

  /** `str::parse::<i32>`: an optional `+` or `-`, then one or more ASCII
      digits, with the value in range; anything else is an error. */
  function ParseI32(s: string): (r: Option<int>)
    ensures r.Some? ==> I32Min <= r.value <= I32Max
    ensures r.Some? ==> |s| > 0
  {
    var negative := |s| > 0 && s[0] == '-';
    var digits := if |s| > 0 && (s[0] == '+' || s[0] == '-') then s[1..] else s;
    if digits == [] || !AllAsciiDigits(digits) then None
    else
      var v: int := if negative then 0 - DecimalValue(digits) as int else DecimalValue(digits);
      if I32Min <= v <= I32Max then Some(v) else None
  }

  /** `str::parse::<usize>`: an optional `+` (never `-`), then one or more
      ASCII digits, with the value in range. */
  function ParseUsize(s: string): (r: Option<nat>)
    ensures r.Some? ==> r.value <= UsizeMax
    ensures r.Some? ==> |s| > 0 && s[0] != '-'
  {
    var digits := if |s| > 0 && s[0] == '+' then s[1..] else s;
    if digits == [] || !AllAsciiDigits(digits) then None
    else if DecimalValue(digits) <= UsizeMax then Some(DecimalValue(digits))
    else None
  }

  /** Digit strings parse to their decimal value. */
  lemma ParseI32Digits(s: string)
    requires s != [] && AllAsciiDigits(s) && DecimalValue(s) <= I32Max
    ensures ParseI32(s) == Some(DecimalValue(s))
  {
  }
}

=== FILE: Search.dfy ===
/**
 * `api::search` (search/src/api/search.rs): the `GET /search` handler and the
 * cursor validator `is_valid_search_after`.
 *
 * The handler's guard prefix (whitespace collapse, the three rejections, the
 * offset default and the cache key) is a pure function; the hit extraction is
 * a map over the backend's hit list that fails as a whole when one `unwrap`
 * would panic. The handler itself is a method over the Redis model: JSON
 * parsing, JSON serialisation and the call to Elasticsearch are parameters.
 */
module SearchApi {
  import opened Wrappers
  import opened RustText
  import opened Json
  import opened Utility
  import Cache

  /** The query parameters `s`, `f` and `sa`. */
  datatype Params = Params(s: string, f: string, sa: Option<string>)

  /** What the handler answers: 400 or 200 with `{"msg": …}`, or nothing at
      all when an `unwrap` in the search closure panics. */
  datatype Response = BadRequest(msg: string) | Success(msg: string) | NoResponse

  const EmptySearchMessage: string := "Empty search parameter is not allowed."
  const SearchSizeMessage: string := "Search size must be 20 or less."
  const InvalidCursorMessage: string := "Invalid search_after parameter."

  /** Time-to-live of the closure's own cache write. */
  const ClosureTtl: nat := 1440
  /** Time-to-live passed to `async_cache_as_json`. */
  const CacheTtl: nat := 86400

  /** `web::Query::<Params>::from_query(…).unwrap_or(…)`: a query string that
      does not deserialise reads as empty `s` and `f` and no `sa`. */
  function ParamsOrDefault(query: Option<Params>): (params: Params)
    ensures query.Some? ==> params == query.value
    ensures query.None? ==> params.s == "" && params.f == "" && params.sa.None?
  {
    query.GetOr(Params("", "", None))
  }

  // ---------------------------------------------------------------------------
  // Whitespace collapse: `Regex::new(r"\s+").replace_all(s, " ")`
  // ---------------------------------------------------------------------------

  /** Collapse with a flag saying whether the text before `s` ended inside a
      whitespace run already replaced. */
  function CollapseFrom(s: string, inRun: bool): (r: string)
    decreases |s|
    ensures |r| <= |s|
  {
    if s == [] then []
    else if IsWhitespace(s[0]) then
      (if inRun then [] else [' ']) + CollapseFrom(s[1..], true)
    else [s[0]] + CollapseFrom(s[1..], false)
  }

  /** Each maximal whitespace run replaced by one space; nothing trimmed. */
  function Collapse(s: string): (r: string)
    ensures Tokens(r) == Tokens(s)
  {
    CollapseFromKeepsTokens(s, false);
    CollapseFrom(s, false)
  }

  /** No two neighbouring whitespace characters. */
  predicate NoAdjacentWhitespace(t: string) {
    forall i | 0 <= i < |t| - 1 :: !(IsWhitespace(t[i]) && IsWhitespace(t[i + 1]))
  }

  /** The only whitespace left is the plain space. */
  predicate OnlySpaces(t: string) {
    forall i | 0 <= i < |t| :: IsWhitespace(t[i]) ==> t[i] == ' '
  }

  lemma {:induction false} CollapseFromShape(s: string, inRun: bool)
    decreases |s|
    ensures var r := CollapseFrom(s, inRun);
      && NoAdjacentWhitespace(r) && OnlySpaces(r)
      && (inRun && r != [] ==> !IsWhitespace(r[0]))
  {
    if s != [] {
      CollapseFromShape(s[1..], IsWhitespace(s[0]));
      var rest := CollapseFrom(s[1..], IsWhitespace(s[0]));
      var r := CollapseFrom(s, inRun);
      if IsWhitespace(s[0]) && !inRun {
        assert r == [' '] + rest;
        forall i | 0 <= i < |r| - 1 ensures !(IsWhitespace(r[i]) && IsWhitespace(r[i + 1])) {
          if i > 0 { assert r[i] == rest[i - 1] && r[i + 1] == rest[i]; }
        }
      } else if !IsWhitespace(s[0]) {
        assert r == [s[0]] + rest;
        forall i | 0 <= i < |r| - 1 ensures !(IsWhitespace(r[i]) && IsWhitespace(r[i + 1])) {
          if i > 0 { assert r[i] == rest[i - 1] && r[i + 1] == rest[i]; }
        }
      }
    }
  }

  lemma {:induction false} CollapseFromEmpty(s: string, inRun: bool)
    decreases |s|
    ensures CollapseFrom(s, inRun) == [] <==> s == [] || (inRun && AllWhitespace(s))
  {
    if s != [] {
      CollapseFromEmpty(s[1..], IsWhitespace(s[0]));
      if IsWhitespace(s[0]) && AllWhitespace(s[1..]) {
        assert AllWhitespace(s) by {
          forall i | 0 <= i < |s| ensures IsWhitespace(s[i]) {
            if i > 0 { assert s[i] == s[1..][i - 1]; }
          }
        }
      }
      if IsWhitespace(s[0]) && !AllWhitespace(s[1..]) {
        var j :| 0 <= j < |s[1..]| && !IsWhitespace(s[1..][j]);
        assert !IsWhitespace(s[j + 1]);
      }
    }
  }

  /** The collapsed text has no two neighbouring whitespace characters, and
      the only whitespace left in it is the plain space. */
  lemma CollapseShape(s: string)
    ensures NoAdjacentWhitespace(Collapse(s)) && OnlySpaces(Collapse(s))
  {
    CollapseFromShape(s, false);
  }

  lemma {:induction false} CollapseFromIdempotent(s: string, inRun: bool)
    decreases |s|
    ensures CollapseFrom(CollapseFrom(s, inRun), inRun) == CollapseFrom(s, inRun)
  {
    if s != [] {
      var rest := CollapseFrom(s[1..], IsWhitespace(s[0]));
      CollapseFromIdempotent(s[1..], IsWhitespace(s[0]));
      if IsWhitespace(s[0]) && !inRun {
        assert CollapseFrom(s, inRun) == [' '] + rest;
        assert ([' '] + rest)[1..] == rest;
      } else if !IsWhitespace(s[0]) {
        assert CollapseFrom(s, inRun) == [s[0]] + rest;
        assert ([s[0]] + rest)[1..] == rest;
        assert CollapseFrom([s[0]] + rest, inRun) == [s[0]] + CollapseFrom(rest, false);
      } else {
        assert CollapseFrom(s, inRun) == rest;
      }
    }
  }

  /** Collapsing keeps every non-whitespace character, so text with one still
      has one afterwards. */
  lemma {:induction false} CollapseFromKeepsWord(s: string, inRun: bool)
    requires !AllWhitespace(s)
    decreases |s|
    ensures !AllWhitespace(CollapseFrom(s, inRun))
  {
    var r := CollapseFrom(s, inRun);
    if IsWhitespace(s[0]) {
      var j :| 0 <= j < |s| && !IsWhitespace(s[j]);
      assert !IsWhitespace(s[1..][j - 1]);
      CollapseFromKeepsWord(s[1..], true);
      var rest := CollapseFrom(s[1..], true);
      var k :| 0 <= k < |rest| && !IsWhitespace(rest[k]);
      if inRun {
        assert r == rest;
      } else {
        assert r == [' '] + rest;
        assert r[k + 1] == rest[k];
      }
    } else {
      assert r[0] == s[0];
    }
  }

  lemma {:induction false} CollapseFromKeepsTokens(s: string, inRun: bool)
    decreases |s|
    ensures Tokens(CollapseFrom(s, inRun)) == Tokens(s)
  {
    if s != [] {
      var rest := CollapseFrom(s[1..], IsWhitespace(s[0]));
      CollapseFromKeepsTokens(s[1..], IsWhitespace(s[0]));
      if IsWhitespace(s[0]) {
        assert Tokens(s) == Tokens(s[1..]);
        if inRun {
          assert CollapseFrom(s, inRun) == rest;
        } else {
          assert CollapseFrom(s, inRun) == [' '] + rest;
          assert IsWhitespace(' ');
          TokensSkip(' ', rest);
        }
      } else {
        assert CollapseFrom(s, inRun) == [s[0]] + rest;
        assert s == [s[0]] + s[1..];
        TokensCons(s[0], rest);
        TokensCons(s[0], s[1..]);
        assert rest == [] || IsWhitespace(rest[0]) <==> s[1..] == [] || IsWhitespace(s[1..][0]);
      }
    }
  }

  /** Collapsing keeps every word, in order and unchanged: the non-whitespace
      characters survive as they were grouped, so the compiled query of the
      collapsed text is that of the raw text. */
  lemma CollapseKeepsTokens(s: string)
    ensures Tokens(Collapse(s)) == Tokens(s)
    ensures SimpleQs(Collapse(s)) == SimpleQs(s)
  {
    CollapseFromKeepsTokens(s, false);
  }

  /** Collapsing twice is collapsing once. */
  lemma CollapseIdempotent(s: string)
    ensures Collapse(Collapse(s)) == Collapse(s)
  {
    CollapseFromIdempotent(s, false);
  }

  /** The collapsed text is `""` or `" "` exactly when the input is all
      whitespace. */
  lemma CollapseBlank(s: string)
    ensures Collapse(s) == "" || Collapse(s) == " " <==> AllWhitespace(s)
  {
    CollapseFromEmpty(s, false);
    var r := Collapse(s);
    if s != [] && IsWhitespace(s[0]) {
      CollapseFromEmpty(s[1..], true);
      assert r == [' '] + CollapseFrom(s[1..], true);
      if AllWhitespace(s) {
        assert AllWhitespace(s[1..]) by {
          forall i | 0 <= i < |s[1..]| ensures IsWhitespace(s[1..][i]) {
            assert s[1..][i] == s[i + 1];
          }
        }
      } else {
        var j :| 0 <= j < |s| && !IsWhitespace(s[j]);
        assert !IsWhitespace(s[1..][j - 1]);
      }
    } else if s != [] {
      assert r[0] == s[0];
    }
  }

  // ---------------------------------------------------------------------------
  // `is_valid_search_after`
  // ---------------------------------------------------------------------------

  /** A number `as_f64` accepts and `is_finite` lets through. */
  predicate IsFiniteNumber(v: Value) {
    AsF64(v).Some? && IsFinite(AsF64(v).value)
  }

  /** The cursors `is_valid_search_after` accepts: JSON text for an array of
      exactly three finite numbers. */
  predicate CursorAccepted(p: Parse) {
    && p.Parsed?
    && p.value.Arr?
    && |p.value.items| == 3
    && forall i | 0 <= i < 3 :: IsFiniteNumber(p.value.items[i])
  }

  /** `is_valid_search_after`: parse, demand an array of length 3, then check
      each element in turn, copying it into `nums`; any failure returns false
      at once. Nothing outside the method changes. */
  method IsValidSearchAfter(parse: string -> Parse, searchAfter: string) returns (valid: bool)
    ensures valid == CursorAccepted(parse(searchAfter))
  {
    var v: Value;
    match parse(searchAfter) {
      case Parsed(value) => v := value;
      case Unparseable => return false;
    }

    var arr: seq<Value>;
    match AsArray(v) {
      case Some(a) =>
        if |a| != 3 {
          return false;
        }
        arr := a;
      case None => return false;
    }

    var nums := new F64[3](_ => Finite(0.0));
    for i := 0 to |arr|
      invariant forall j | 0 <= j < i :: IsFiniteNumber(arr[j]) && nums[j] == AsF64(arr[j]).value
    {
      var item := arr[i];
      var n: F64;
      match AsF64(item) {
        case Some(x) =>
          if !IsFinite(x) {
            return false;
          }
          n := x;
        case None => return false;
      }
      nums[i] := n;
    }

    return true;
  }

  /** Text that is not JSON is refused. */
  lemma UnparseableCursorRejected(p: Parse)
    requires p.Unparseable?
    ensures !CursorAccepted(p)
  {
  }

  /** A value other than an array, or an array of another length, is refused. */
  lemma WrongShapeCursorRejected(v: Value)
    requires !v.Arr? || |v.items| != 3
    ensures !CursorAccepted(Parsed(v))
  {
  }

  /** An element that is a string, bool, null, array or object is refused. */
  lemma NonNumberCursorRejected(items: seq<Value>, i: int)
    requires |items| == 3 && 0 <= i < 3 && !items[i].Num?
    ensures !CursorAccepted(Parsed(Arr(items)))
  {
  }

  /** With a parser that follows RFC 8259 the finiteness test never rejects:
      the validator accepts exactly the texts that parse to an array of three
      numbers. */
  lemma CursorAcceptedExactly(parse: string -> Parse, text: string)
    requires ParserSound(parse)
    ensures CursorAccepted(parse(text))
        <==> parse(text).Parsed? && parse(text).value.Arr? && |parse(text).value.items| == 3
             && forall i | 0 <= i < 3 :: parse(text).value.items[i].Num?
  {
    var p := parse(text);
    if p.Parsed? && p.value.Arr? && |p.value.items| == 3 {
      forall i | 0 <= i < 3
        ensures p.value.items[i].Num? ==> IsFiniteNumber(p.value.items[i])
      {
        RepresentableElements(p.value, i);
      }
    }
  }

  // ---------------------------------------------------------------------------
  // The guard prefix of `search`
  // ---------------------------------------------------------------------------

  /** Where the guard leaves a request: refused with a message, or admitted
      with the collapsed text, the offset, the cursor and the cache key. */
  datatype Guarded =
    | Rejected(msg: string)
    | Admitted(search: string, from: nat, searchAfter: Option<string>, cacheKey: string)

  /** The requests the guard lets through: a search that is not blank, that
      does not read as an `i32` above 20, and whose cursor, if any, is valid. */
  predicate Admissible(parse: string -> Parse, params: Params) {
    && !AllWhitespace(params.s)
    && ParseI32(params.s).GetOr(0) <= 20
    && (params.sa.Some? ==> CursorAccepted(parse(params.sa.value)))
  }

  /** The checks `search` makes before it touches the cache, in order. */
  function Guard(parse: string -> Parse, params: Params): (g: Guarded)
    ensures g.Admitted? <==> Admissible(parse, params)
    ensures g.Rejected? ==>
      g.msg == EmptySearchMessage || g.msg == SearchSizeMessage || g.msg == InvalidCursorMessage
    ensures g.Admitted? ==> SimpleQs(g.search) == SimpleQs(params.s) && g.searchAfter == params.sa
  {
    CollapseBlank(params.s);
    CollapseKeepsTokens(params.s);
    var dataSearch := Collapse(params.s);
    if dataSearch == "" || dataSearch == " " then
      Rejected(EmptySearchMessage)
    else if ParseI32(params.s).GetOr(0) > 20 then
      Rejected(SearchSizeMessage)
    else if params.sa.Some? && !CursorAccepted(parse(params.sa.value)) then
      Rejected(InvalidCursorMessage)
    else
      Admitted(dataSearch, ParseUsize(params.f).GetOr(0), params.sa, dataSearch + "-" + params.f)
  }

  /** Whitespace-only text is refused as empty, before the size and cursor
      checks get a say. */
  lemma BlankSearchRejected(parse: string -> Parse, params: Params)
    requires AllWhitespace(params.s)
    ensures Guard(parse, params) == Rejected(EmptySearchMessage)
  {
    CollapseBlank(params.s);
  }

  /** A query string that does not deserialise reads as an empty search and
      is refused as such. */
  lemma UndecodableQueryRejected(parse: string -> Parse)
    ensures Guard(parse, ParamsOrDefault(None)) == Rejected(EmptySearchMessage)
  {
    BlankSearchRejected(parse, ParamsOrDefault(None));
  }

  /** Text that parses as an `i32` above 20 is refused; text that does not
      parse counts as 0 and never trips this check. */
  lemma SearchSizeCheck(parse: string -> Parse, params: Params)
    requires !AllWhitespace(params.s)
    ensures ParseI32(params.s).Some? && ParseI32(params.s).value > 20
        <==> Guard(parse, params) == Rejected(SearchSizeMessage)
  {
    CollapseBlank(params.s);
  }

  /** Past the first two checks, a cursor is refused exactly when the
      validator refuses it. */
  lemma CursorCheck(parse: string -> Parse, params: Params)
    requires !AllWhitespace(params.s) && ParseI32(params.s).GetOr(0) <= 20
    ensures Guard(parse, params) == Rejected(InvalidCursorMessage)
        <==> params.sa.Some? && !CursorAccepted(parse(params.sa.value))
  {
    CollapseBlank(params.s);
  }

  /** An admitted request: the search text is the collapsed input, the offset
      is `f` as a `usize` or 0, the cursor is the one given (and valid), and
      the cache key is the collapsed text, `-`, and the RAW `f`. */
  lemma AdmittedRequest(parse: string -> Parse, params: Params)
    requires Admissible(parse, params)
    ensures var g := Guard(parse, params);
      && g.Admitted?
      && g.search == Collapse(params.s)
      && g.from == (if ParseUsize(params.f).Some? then ParseUsize(params.f).value else 0)
      && g.searchAfter == params.sa
      && (params.sa.Some? ==> CursorAccepted(parse(params.sa.value)))
      && g.cacheKey == Collapse(params.s) + "-" + params.f
  {
    CollapseBlank(params.s);
  }

  /** The cache key does not depend on the cursor: two admitted requests that
      differ only in `sa` share one cache entry. */
  lemma CacheKeyIgnoresCursor(parse: string -> Parse, s: string, f: string, sa1: Option<string>, sa2: Option<string>)
    requires Admissible(parse, Params(s, f, sa1)) && Admissible(parse, Params(s, f, sa2))
    ensures Guard(parse, Params(s, f, sa1)).Admitted? && Guard(parse, Params(s, f, sa2)).Admitted?
    ensures Guard(parse, Params(s, f, sa1)).cacheKey == Guard(parse, Params(s, f, sa2)).cacheKey
  {
  }

  /** Spaces kept by the collapse split the cache: ` a` and `a` send the same
      request body but are cached under different keys. */
  lemma SpacingSplitsCacheKey(parse: string -> Parse, f: string)
    ensures var g1 := Guard(parse, Params(" a", f, None));
      var g2 := Guard(parse, Params("a", f, None));
      && g1.Admitted? && g2.Admitted?
      && g1.cacheKey != g2.cacheKey
      && RequestBody(parse, g1.search, g1.from, g1.searchAfter)
         == RequestBody(parse, g2.search, g2.from, g2.searchAfter)
  {
    var g1 := Guard(parse, Params(" a", f, None));
    var g2 := Guard(parse, Params("a", f, None));
    assert !IsWhitespace('a') && IsWhitespace(' ') && !IsAsciiDigit(' ') && !IsAsciiDigit('a');
    assert !AllWhitespace(" a") && !AllWhitespace("a");
    assert !AllAsciiDigits(" a") && !AllAsciiDigits("a");
    assert Collapse(" a") == " a" by {
      assert " a"[1..] == "a";
      assert "a"[1..] == [];
    }
    assert Collapse("a") == "a" by {
      assert "a"[1..] == [];
    }
    assert g1.cacheKey[0] != g2.cacheKey[0];
    assert " a" == [' '] + "a";
    TokensSkip(' ', "a");
  }

  /** An admitted request never sends an empty query string. */
  lemma AdmittedQueryNonEmpty(parse: string -> Parse, params: Params)
    requires Admissible(parse, params)
    ensures Guard(parse, params).Admitted? && SimpleQs(Guard(parse, params).search) != ""
  {
    CollapseBlank(params.s);
    CollapseFromKeepsWord(params.s, false);
    BlankCompilesToEmpty(Collapse(params.s));
  }

  /** A cursor that passed the guard reaches the request body as the parsed
      three-number array, never as the `null` fallback. */
  lemma ValidatedCursorInBody(parse: string -> Parse, params: Params)
    requires Admissible(parse, params) && params.sa.Some?
    ensures var g := Guard(parse, params);
      var body := RequestBody(parse, g.search, g.from, g.searchAfter);
      && g.Admitted?
      && body.Obj? && "search_after" in body.fields && "from" !in body.fields
      && body.fields["search_after"].Arr?
      && |body.fields["search_after"].items| == 3
      && forall i | 0 <= i < 3 :: IsFiniteNumber(body.fields["search_after"].items[i])
  {
    var g := Guard(parse, params);
    AdmittedRequest(parse, params);
    PagingIsExclusive(parse, g.search, g.from, g.searchAfter);
  }

  // ---------------------------------------------------------------------------
  // Hit extraction
  // ---------------------------------------------------------------------------

  /** One result as the handler returns it; `sort` is the hit's sort values
      serialised to JSON text. */
  datatype SearchResult = SearchResult(highlight: Value, url: string, title: string, sort: string)

  /** One backend hit as a result, or `None` where an `unwrap` would panic:
      the hit is not an object, or lacks `highlight` or `sort`, or its
      `_source` is not an object with string `url` and `title`. */
  function HitOf(encode: Value -> string, hit: Value): (r: Option<SearchResult>)
    ensures r.Some? <==>
      && hit.Obj? && "highlight" in hit.fields && "sort" in hit.fields
      && Index(hit, "_source").Obj?
      && Index(Index(hit, "_source"), "url").Str?
      && Index(Index(hit, "_source"), "title").Str?
    ensures r.Some? ==>
      && r.value.highlight == hit.fields["highlight"]
      && Index(Index(hit, "_source"), "url") == Str(r.value.url)
      && Index(Index(hit, "_source"), "title") == Str(r.value.title)
      && r.value.sort == encode(hit.fields["sort"])
  {
    match AsObject(hit)
    case None => None
    case Some(fields) =>
      match (Get(fields, "highlight"), Get(fields, "_source"), Get(fields, "sort"))
      case (Some(highlight), Some(sourceValue), Some(sort)) =>
        (match AsObject(sourceValue)
         case None => None
         case Some(source) =>
           match (Get(source, "url"), Get(source, "title"))
           case (Some(url), Some(title)) =>
             if url.Str? && title.Str? then Some(SearchResult(highlight, url.s, title.s, encode(sort)))
             else None
           case _ => None)
      case _ => None
  }

  /** `map(…).collect()` over the hits: every hit converted, in order, or a
      panic (`None`) as soon as one cannot be. */
  function CollectHits(encode: Value -> string, hits: seq<Value>): (r: Option<seq<SearchResult>>)
    ensures r.Some? <==> forall i | 0 <= i < |hits| :: HitOf(encode, hits[i]).Some?
    ensures r.Some? ==> |r.value| == |hits|
    ensures r.Some? ==> forall i | 0 <= i < |hits| :: HitOf(encode, hits[i]) == Some(r.value[i])
  {
    if hits == [] then Some([])
    else
      match HitOf(encode, hits[0])
      case None => None
      case Some(first) =>
        match CollectHits(encode, hits[1..])
        case None =>
          assert exists i | 1 <= i < |hits| :: HitOf(encode, hits[i]).None? by {
            var j :| 0 <= j < |hits[1..]| && HitOf(encode, hits[1..][j]).None?;
            assert hits[1..][j] == hits[j + 1];
          }
          None
        case Some(rest) =>
          assert forall i | 1 <= i < |hits| :: hits[i] == hits[1..][i - 1];
          Some([first] + rest)
  }

  /** The hit list of a search response: `hits.hits` when it is an array,
      otherwise empty. */
  function HitList(response: Value): (hits: seq<Value>)
    ensures hits != [] ==> Index(Index(response, "hits"), "hits") == Arr(hits)
  {
    AsArray(Index(Index(response, "hits"), "hits")).GetOr([])
  }

  /** The results the closure builds from a backend response. */
  function ExtractHits(encode: Value -> string, response: Value): (r: Option<seq<SearchResult>>)
    ensures var list := Index(Index(response, "hits"), "hits");
      list.Arr? ==>
        && (r.Some? <==> forall i | 0 <= i < |list.items| :: HitOf(encode, list.items[i]).Some?)
        && (r.Some? ==> |r.value| == |list.items|
                        && forall i | 0 <= i < |list.items| :: HitOf(encode, list.items[i]) == Some(r.value[i]))
  {
    CollectHits(encode, HitList(response))
  }

  /** A response without an array at `hits.hits` yields no results, not an
      error. */
  lemma MissingHitsGiveNoResults(encode: Value -> string, response: Value)
    requires !Index(Index(response, "hits"), "hits").Arr?
    ensures ExtractHits(encode, response) == Some([])
  {
  }

  /** `#[derive(Serialize)]` on `SearchResult`: one member per field. */
  function ResultJson(r: SearchResult): (v: Value)
    ensures v.Obj? && v.fields.Keys == {"highlight", "url", "title", "sort"}
    ensures AsStr(v.fields["url"]) == Some(r.url) && AsStr(v.fields["title"]) == Some(r.title)
    ensures v.fields["highlight"] == r.highlight && AsStr(v.fields["sort"]) == Some(r.sort)
  {
    Obj(map["highlight" := r.highlight, "url" := Str(r.url), "title" := Str(r.title), "sort" := Str(r.sort)])
  }

  /** `json!({"hits": &hits})` */
  function HitsDocument(results: seq<SearchResult>): (doc: Value)
    ensures doc.Obj? && doc.fields.Keys == {"hits"}
    ensures var list := doc.fields["hits"];
      list.Arr? && |list.items| == |results|
      && forall i | 0 <= i < |results| :: list.items[i] == ResultJson(results[i])
  {
    Obj(map["hits" := Arr(seq(|results|, i requires 0 <= i < |results| => ResultJson(results[i])))])
  }

  // ---------------------------------------------------------------------------
  // The handler
  // ---------------------------------------------------------------------------

  /** The closure handed to `async_cache_as_json`: build the body, post it,
      extract the hits, serialise them, write them to the cache for
      `ClosureTtl` seconds and return them. `backend` maps the serialised body
      to the decoded response, `None` when sending or decoding fails (an
      `unwrap` that panics). */
  function Fetch(parse: string -> Parse, encode: Value -> string, backend: string -> Option<Value>,
                 search: string, from: nat, searchAfter: Option<string>, cacheKey: string): (run: Cache.Run)
    ensures var answer := backend(encode(RequestBody(parse, search, from, searchAfter)));
      run.Returned? <==> answer.Some? && ExtractHits(encode, answer.value).Some?
    ensures run.Panicked? ==> run.sets == []
    ensures var answer := backend(encode(RequestBody(parse, search, from, searchAfter)));
      run.Returned? ==>
        && run.value == encode(HitsDocument(ExtractHits(encode, answer.value).value))
        && run.sets == [Cache.SetCall(cacheKey, run.value, Some(ClosureTtl))]
  {
    match backend(encode(RequestBody(parse, search, from, searchAfter)))
    case None => Cache.Panicked([])
    case Some(response) =>
      match ExtractHits(encode, response)
      case None => Cache.Panicked([])
      case Some(hits) =>
        var searchResult := encode(HitsDocument(hits));
        Cache.Returned(searchResult, [Cache.SetCall(cacheKey, searchResult, Some(ClosureTtl))])
  }

  /** `search`: the guard, then cache-aside around the backend search. A
      refused request is answered 400 and leaves the cache alone; a hit is
      answered with the stored string; on a miss the fresh result is answered
      and, of the two writes, the second (`CacheTtl` seconds) is the one that
      stays. */
  method Search(redis: Cache.Redis, query: Option<Params>, parse: string -> Parse,
                encode: Value -> string, backend: string -> Option<Value>) returns (response: Response)
    modifies redis
    ensures var g := Guard(parse, ParamsOrDefault(query));
      g.Rejected? ==> response == BadRequest(g.msg) && redis.entries == old(redis.entries)
    ensures var g := Guard(parse, ParamsOrDefault(query));
      g.Admitted? && redis.online && Cache.Lookup(old(redis.entries), redis.now, g.cacheKey).Some? ==>
        && response == Success(Cache.Lookup(old(redis.entries), redis.now, g.cacheKey).value)
        && redis.entries == old(redis.entries)
    ensures var g := Guard(parse, ParamsOrDefault(query));
      g.Admitted? && !(redis.online && Cache.Lookup(old(redis.entries), redis.now, g.cacheKey).Some?) ==>
        var run := Fetch(parse, encode, backend, g.search, g.from, g.searchAfter, g.cacheKey);
        && (run.Panicked? ==> response == NoResponse && redis.entries == old(redis.entries))
        && (run.Returned? ==>
              && response == Success(run.value)
              && redis.entries == if redis.online
                                  then old(redis.entries)[g.cacheKey := Cache.Entry(run.value, Some(redis.now + CacheTtl))]
                                  else old(redis.entries))
  {
    var params := ParamsOrDefault(query);
    var g := Guard(parse, params);
    if g.Rejected? {
      return BadRequest(g.msg);
    }
    var closure := () => Fetch(parse, encode, backend, g.search, g.from, g.searchAfter, g.cacheKey);
    var fetched := redis.AsyncCacheAsJson(g.cacheKey, closure, CacheTtl);
    if fetched.Some? {
      response := Success(fetched.value);
    } else {
      response := NoResponse;
    }
    ghost var run := closure();
    if run.Returned? {
      Cache.LastSetWins(old(redis.entries), redis.now, redis.online, g.cacheKey,
                        run.value, Some(ClosureTtl), run.value, Some(CacheTtl));
    }
  }
}

=== FILE: Utility.dfy ===
/**
 * `api::utility` (search/src/api/utility/mod.rs): the compiler from free text
 * to an Elasticsearch `simple_query_string` expression, and the builder of the
 * request body around it.
 *
 * Each operation is a method shaped like the Rust code (a loop pushing onto
 * `out`, a map updated with `insert`) and is proved equal to a specification
 * function; the lemmas below state what the specification functions promise.
 */
module Utility {
  import opened Wrappers
  import opened RustText
  import opened Json

  // ---------------------------------------------------------------------------
  // Tokenising: `str::split_whitespace`
  // ---------------------------------------------------------------------------

  /** Length of the leading run of non-whitespace characters. */
  function WordLen(s: string): (n: nat)
    ensures n <= |s|
    ensures NoWhitespace(s[..n])
    ensures n < |s| ==> IsWhitespace(s[n])
    ensures s != [] && !IsWhitespace(s[0]) ==> n >= 1
  {
    if s == [] || IsWhitespace(s[0]) then 0
    else
      var n := 1 + WordLen(s[1..]);
      assert s[..n] == [s[0]] + s[1..][..n - 1];
      n
  }

  /** `str::split_whitespace`: the maximal runs of non-whitespace, in order. */
  function Tokens(s: string): (ts: seq<string>)
    decreases |s|
    ensures forall i | 0 <= i < |ts| :: ts[i] != [] && NoWhitespace(ts[i])
  {
    if s == [] then []
    else if IsWhitespace(s[0]) then Tokens(s[1..])
    else
      var n := WordLen(s);
      [s[..n]] + Tokens(s[n..])
  }

  /** Text yields no token exactly when it has no non-whitespace character. */
  lemma {:induction false} TokensEmpty(s: string)
    decreases |s|
    ensures Tokens(s) == [] <==> AllWhitespace(s)
  {
    if s != [] && IsWhitespace(s[0]) {
      TokensEmpty(s[1..]);
      if AllWhitespace(s[1..]) {
        forall i | 0 <= i < |s| ensures IsWhitespace(s[i]) {
          if i > 0 { assert s[i] == s[1..][i - 1]; }
        }
      }
    }
  }

  lemma {:induction false} WordLenOfWord(w: string, rest: string)
    requires NoWhitespace(w)
    requires rest == [] || IsWhitespace(rest[0])
    ensures WordLen(w + rest) == |w|
  {
    if w == [] {
      assert w + rest == rest;
    } else {
      assert (w + rest)[1..] == w[1..] + rest;
      WordLenOfWord(w[1..], rest);
    }
  }

  /** A whitespace-free word ended by whitespace or the end of the text is
      the next token. */
  lemma TokensWord(w: string, rest: string)
    requires w != [] && NoWhitespace(w)
    requires rest == [] || IsWhitespace(rest[0])
    ensures Tokens(w + rest) == [w] + Tokens(rest)
  {
    WordLenOfWord(w, rest);
    var s := w + rest;
    assert s[..|w|] == w && s[|w|..] == rest;
  }

  /** Leading whitespace yields no token. */
  lemma TokensSkip(c: char, rest: string)
    requires IsWhitespace(c)
    ensures Tokens([c] + rest) == Tokens(rest)
  {
    assert ([c] + rest)[1..] == rest;
  }

  /** A non-whitespace character in front of `rest` is a token of its own when
      `rest` is empty or starts with whitespace, and otherwise joins the first
      token of `rest`. */
  lemma TokensCons(c: char, rest: string)
    requires !IsWhitespace(c)
    ensures rest == [] || IsWhitespace(rest[0]) ==> Tokens([c] + rest) == [[c]] + Tokens(rest)
    ensures rest != [] && !IsWhitespace(rest[0]) ==>
      Tokens(rest) != [] && Tokens([c] + rest) == [[c] + Tokens(rest)[0]] + Tokens(rest)[1..]
  {
    var s := [c] + rest;
    assert s[1..] == rest;
    var m := WordLen(rest);
    assert WordLen(s) == 1 + m;
    assert s[..1 + m] == [c] + rest[..m];
    assert s[1 + m..] == rest[m..];
  }

  // ---------------------------------------------------------------------------
  // `escape_special`
  // ---------------------------------------------------------------------------

  /** The 22 characters `escape_special` treats as reserved by Lucene. */
  const SpecialChars: seq<char> :=
    ['+', '-', '=', '&', '|', '>', '<', '!', '(', ')',
     '{', '}', '[', ']', '^', '"', '~', '*', '?', ':', '\\', '/']

  predicate IsSpecial(c: char) {
    c in SpecialChars
  }

  /** One input character as it appears in the escaped output. */
  function EscapeUnit(c: char): seq<char> {
    if IsSpecial(c) then ['\\', c] else [c]
  }

  /** Specification of `escape_special`. */
  function Escaped(s: string): string {
    if s == [] then [] else EscapeUnit(s[0]) + Escaped(s[1..])
  }

  /** Number of reserved characters in `s`. */
  function CountSpecial(s: string): nat {
    if s == [] then 0 else (if IsSpecial(s[0]) then 1 else 0) + CountSpecial(s[1..])
  }

  /** Removes the backslash of each escape pair: the left inverse of `Escaped`. */
  function Unescape(t: string): string
    decreases |t|
  {
    if t == [] then []
    else if t[0] == '\\' && |t| >= 2 then [t[1]] + Unescape(t[2..])
    else [t[0]] + Unescape(t[1..])
  }

  /** Text in which every reserved character is preceded by a backslash that
      escapes it, and no other backslash occurs. */
  predicate WellEscaped(t: string)
    decreases |t|
  {
    if t == [] then true
    else if !IsSpecial(t[0]) then WellEscaped(t[1..])
    else |t| >= 2 && t[0] == '\\' && IsSpecial(t[1]) && WellEscaped(t[2..])
  }

  lemma {:induction false} EscapedConcat(a: string, b: string)
    ensures Escaped(a + b) == Escaped(a) + Escaped(b)
  {
    if a == [] {
      assert a + b == b;
    } else {
      assert (a + b)[1..] == a[1..] + b;
      EscapedConcat(a[1..], b);
    }
  }

  /** `escape_special`: push a backslash before each reserved character, then
      the character itself. */
  method EscapeSpecial(s: string) returns (out: string)
    ensures out == Escaped(s)
  {
    out := "";
    for i := 0 to |s|
      invariant out == Escaped(s[..i])
    {
      var ch := s[i];
      if IsSpecial(ch) {
        out := out + ['\\'];
      }
      out := out + [ch];
      assert s[..i + 1] == s[..i] + [ch];
      EscapedConcat(s[..i], [ch]);
    }
    assert s[..|s|] == s;
  }

  /** The output grows by exactly one backslash per reserved character. */
  lemma {:induction false} EscapedLength(s: string)
    ensures |Escaped(s)| == |s| + CountSpecial(s)
  {
    if s != [] {
      EscapedLength(s[1..]);
    }
  }

  /** Deleting each inserted backslash gives back the input: nothing is lost,
      reordered or changed. */
  lemma {:induction false} UnescapeEscaped(s: string)
    ensures Unescape(Escaped(s)) == s
  {
    if s != [] {
      UnescapeEscaped(s[1..]);
      var t := Escaped(s);
      if IsSpecial(s[0]) {
        assert t == ['\\', s[0]] + Escaped(s[1..]);
        assert t[2..] == Escaped(s[1..]);
      } else {
        assert s[0] != '\\';
        assert t == [s[0]] + Escaped(s[1..]);
        assert t[1..] == Escaped(s[1..]);
      }
    }
  }

  /** Escaped text never carries a bare reserved character. */
  lemma {:induction false} EscapedIsWellEscaped(s: string)
    ensures WellEscaped(Escaped(s))
  {
    if s != [] {
      EscapedIsWellEscaped(s[1..]);
      var t := Escaped(s);
      if IsSpecial(s[0]) {
        assert t == ['\\', s[0]] + Escaped(s[1..]);
        assert IsSpecial('\\');
        assert t[2..] == Escaped(s[1..]);
      } else {
        assert t == [s[0]] + Escaped(s[1..]);
        assert t[1..] == Escaped(s[1..]);
      }
    }
  }

  /** Every well-escaped text is the escaping of exactly one input, so
      `Escaped` is a bijection onto the well-escaped texts. */
  lemma {:induction false} EscapedUnescape(t: string)
    requires WellEscaped(t)
    decreases |t|
    ensures Escaped(Unescape(t)) == t
  {
    if t != [] {
      if !IsSpecial(t[0]) {
        assert t[0] != '\\' by { assert IsSpecial('\\'); }
        EscapedUnescape(t[1..]);
        assert Unescape(t) == [t[0]] + Unescape(t[1..]);
      } else {
        EscapedUnescape(t[2..]);
        assert Unescape(t) == [t[1]] + Unescape(t[2..]);
        assert Escaped([t[1]] + Unescape(t[2..])) == ['\\', t[1]] + Escaped(Unescape(t[2..]));
        assert t == t[..2] + t[2..];
      }
    }
  }

  /** Text without reserved characters escapes to itself. */
  lemma {:induction false} PlainEscapesToItself(s: string)
    requires forall i | 0 <= i < |s| :: !IsSpecial(s[i])
    ensures Escaped(s) == s
  {
    if s != [] {
      assert !IsSpecial(s[0]);
      PlainEscapesToItself(s[1..]);
    }
  }

  /** Digit strings contain no reserved character, so they escape to
      themselves. */
  lemma DigitsEscapeToThemselves(s: string)
    requires AllAsciiDigits(s)
    ensures Escaped(s) == s
  {
    forall i | 0 <= i < |s| ensures !IsSpecial(s[i]) {
      assert IsAsciiDigit(s[i]);
    }
    PlainEscapesToItself(s);
  }

  // ---------------------------------------------------------------------------
  // `is_quoted` and the `OR` test
  // ---------------------------------------------------------------------------

  /** `is_quoted`: at least two BYTES long, starting and ending with `"`. */
  predicate IsQuoted(s: string) {
    ByteLen(s) >= 2 && |s| > 0 && s[0] == '"' && s[|s| - 1] == '"'
  }

  /** The byte-length test agrees with a character-count test: a lone `"` is
      one byte and is not quoted; any two or more characters are. */
  lemma QuotedByChars(s: string)
    ensures IsQuoted(s) <==> |s| >= 2 && s[0] == '"' && s[|s| - 1] == '"'
  {
    if |s| == 1 {
      assert ByteLen(s) == Utf8Width(s[0]) + ByteLen(s[1..]);
    }
  }

  /** The operator test of `to_simple_qs`: `OR` in any ASCII case and not
      quoted. */
  predicate IsOrOperator(t: string) {
    EqIgnoreAsciiCase(t, "OR") && !IsQuoted(t)
  }

  /** Exactly four spellings are the operator; the "not quoted" half of the
      test never matters. */
  lemma OrSpellings(t: string)
    ensures IsOrOperator(t) <==> t in {"or", "oR", "Or", "OR"}
    ensures EqIgnoreAsciiCase(t, "OR") ==> !IsQuoted(t)
  {
    if EqIgnoreAsciiCase(t, "OR") {
      assert AsciiLower(t[0]) == 'o' && AsciiLower(t[1]) == 'r';
      assert t[0] == 'o' || t[0] == 'O';
      assert t[1] == 'r' || t[1] == 'R';
      assert t == [t[0], t[1]];
    }
    if t in {"or", "oR", "Or", "OR"} {
      assert |t| == 2;
      assert AsciiLower(t[0]) == 'o' && AsciiLower(t[1]) == 'r';
      QuotedByChars(t);
    }
  }

  // ---------------------------------------------------------------------------
  // `to_simple_qs`
  // ---------------------------------------------------------------------------

  function Quote(s: string): string {
    "\"" + s + "\""
  }

  /** What a non-operator token contributes: itself when already quoted,
      otherwise its escaping wrapped in quotes. */
  function Emit(t: string): string {
    if IsQuoted(t) then t else Quote(Escaped(t))
  }

  /** What the i-th token contributes, described by position: `OR` stands for
      itself; any other token is preceded by ` AND ` exactly when there is a
      previous token and that token is not `OR`. */
  function Piece(tokens: seq<string>, i: nat): string
    requires i < |tokens|
  {
    if IsOrOperator(tokens[i]) then " OR "
    else (if i > 0 && !IsOrOperator(tokens[i - 1]) then " AND " else "") + Emit(tokens[i])
  }

  /** The contributions of the first k tokens, in order. */
  function Compiled(tokens: seq<string>, k: nat): string
    requires k <= |tokens|
  {
    if k == 0 then "" else Compiled(tokens, k - 1) + Piece(tokens, k - 1)
  }

  /** Specification of `to_simple_qs`. */
  function SimpleQs(raw: string): string {
    var tokens := Tokens(raw);
    Compiled(tokens, |tokens|)
  }

  /** `to_simple_qs`: one pass over the tokens with the flag `need_and`. */
  method ToSimpleQs(raw: string) returns (out: string)
    ensures out == SimpleQs(raw)
  {
    out := "";
    var needAnd := false;
    var tokens := Tokens(raw);
    for k := 0 to |tokens|
      invariant out == Compiled(tokens, k)
      invariant needAnd <==> k > 0 && !IsOrOperator(tokens[k - 1])
    {
      // `orig.trim()` is the identity here: a token holds no whitespace
      var token := tokens[k];

      if EqIgnoreAsciiCase(token, "OR") && !IsQuoted(token) {
        assert Piece(tokens, k) == " OR ";
        out := out + " OR ";
        needAnd := false;
        continue;
      }

      ghost var before := out;
      ghost var separator: string := if needAnd then " AND " else "";
      if needAnd {
        out := out + " AND ";
      }
      assert out == before + separator;

      var processed;
      if IsQuoted(token) {
        processed := token;
      } else if AllAsciiDigits(token) {
        var escaped := EscapeSpecial(token);
        processed := "\"" + escaped + "\"";
      } else {
        var escaped := EscapeSpecial(token);
        processed := "\"" + escaped + "\"";
      }

      assert processed == Emit(token);
      assert Piece(tokens, k) == separator + processed;
      out := out + processed;
      AppendAssoc(before, separator, processed);
      needAnd := true;
    }
  }

  /** Kept as a lemma so that the loop above sees this one instance only. */
  lemma AppendAssoc(a: string, b: string, c: string)
    ensures (a + b) + c == a + (b + c)
  {
  }

  predicate StartsWith(s: string, prefix: string) {
    |prefix| <= |s| && s[..|prefix|] == prefix
  }

  /** ` AND ` opens a token's contribution exactly when the token and the one
      before it both exist and neither is `OR`; never before the first token
      and never right after an `OR`. */
  lemma AndPlacement(tokens: seq<string>, i: nat)
    requires i < |tokens| && tokens[i] != []
    ensures StartsWith(Piece(tokens, i), " AND ")
        <==> i > 0 && !IsOrOperator(tokens[i - 1]) && !IsOrOperator(tokens[i])
  {
    var t := tokens[i];
    var e := Emit(t);
    assert e[0] == '"' by {
      if !IsQuoted(t) { assert e == ['"'] + Escaped(t) + ['"']; }
    }
    if !IsOrOperator(t) && !(i > 0 && !IsOrOperator(tokens[i - 1])) {
      assert Piece(tokens, i) == e;
      assert Piece(tokens, i)[0] != " AND "[0];
    }
    if IsOrOperator(t) {
      assert Piece(tokens, i)[1] != " AND "[1];
    }
  }

  /** Every token contributes something. */
  lemma PieceNonEmpty(tokens: seq<string>, i: nat)
    requires i < |tokens| && tokens[i] != []
    ensures |Piece(tokens, i)| > 0
  {
  }

  /** `to_simple_qs` yields the empty string exactly when the input has no
      non-whitespace character. */
  lemma BlankCompilesToEmpty(raw: string)
    ensures SimpleQs(raw) == "" <==> AllWhitespace(raw)
  {
    var tokens := Tokens(raw);
    TokensEmpty(raw);
    if tokens != [] {
      PieceNonEmpty(tokens, |tokens| - 1);
    }
  }

  /** `s` joined with ` AND `. */
  function JoinAnd(s: seq<string>): string {
    if |s| == 0 then ""
    else if |s| == 1 then s[0]
    else JoinAnd(s[..|s| - 1]) + " AND " + s[|s| - 1]
  }

  /** Without an `OR`, the result is the token contributions joined with
      ` AND `. */
  lemma {:induction false} NoOrJoinsWithAnd(tokens: seq<string>, k: nat)
    requires k <= |tokens|
    requires forall i | 0 <= i < |tokens| :: !IsOrOperator(tokens[i])
    ensures Compiled(tokens, k) == JoinAnd(seq(k, i requires 0 <= i < k => Emit(tokens[i])))
  {
    if k > 0 {
      NoOrJoinsWithAnd(tokens, k - 1);
      var emits := seq(k, i requires 0 <= i < k => Emit(tokens[i]));
      assert emits[..k - 1] == seq(k - 1, i requires 0 <= i < k - 1 => Emit(tokens[i]));
    }
  }

  /** Token contributions: a quoted token verbatim, a digit token quoted
      as it is, anything else quoted after escaping. */
  lemma EmitCases(t: string)
    ensures IsQuoted(t) ==> Emit(t) == t
    ensures !IsQuoted(t) ==> Emit(t) == "\"" + Escaped(t) + "\""
    ensures t != [] && AllAsciiDigits(t) ==> Emit(t) == "\"" + t + "\""
  {
    if t != [] && AllAsciiDigits(t) {
      assert IsAsciiDigit(t[0]);
      DigitsEscapeToThemselves(t);
    }
  }

  // ---------------------------------------------------------------------------
  // `build_search_query`
  // ---------------------------------------------------------------------------

  function Strs(s: seq<string>): seq<Value> {
    seq(|s|, i requires 0 <= i < |s| => Str(s[i]))
  }

  function Order(field: string, direction: string): Value {
    Obj(map[field := Obj(map["order" := Str(direction)])])
  }

  /** Relevance first, then newest page, then the shard-level tie-breaker. */
  const SortClause: Value :=
    Arr([Order("_score", "desc"), Order("page_created_at", "desc"), Order("_shard_doc", "asc")])

  const PageSize: int := 20

  /** The fixed part of the request body, around the compiled query. */
  function Skeleton(queryString: string): (body: Value)
    ensures body.Obj?
    ensures "from" !in body.fields && "search_after" !in body.fields
  {
    Obj(map[
      "_source" := Arr(Strs(["url", "title", "content"])),
      "size" := Num(Int(PageSize)),
      "track_total_hits" := Bool(false),
      "query" := Obj(map[
        "simple_query_string" := Obj(map[
          "query" := Str(queryString),
          "fields" := Arr(Strs(["title^2", "content"])),
          "default_operator" := Str("and"),
          "flags" := Str("AND|OR|PHRASE|FUZZY"),
          "fuzzy_prefix_length" := Num(Int(1)),
          "fuzzy_max_expansions" := Num(Int(100))
        ])
      ]),
      "highlight" := Obj(map[
        "pre_tags" := Arr(Strs(["<b>"])),
        "post_tags" := Arr(Strs(["</b>"])),
        "fields" := Obj(map[
          "title" := Obj(map["fragment_size" := Num(Int(500)), "number_of_fragments" := Num(Int(1))]),
          "content" := Obj(map["fragment_size" := Num(Int(500)), "number_of_fragments" := Num(Int(1))]),
          "url" := Obj(map["number_of_fragments" := Num(Int(0))])
        ])
      ]),
      "sort" := SortClause
    ])
  }

  /** The cursor as `search_after` carries it: the parsed value, or `null`
      when it does not parse. */
  function CursorField(p: Parse): Value {
    match p
    case Parsed(v) => v
    case Unparseable => Null
  }

  /** Specification of `build_search_query`. */
  function RequestBody(parse: string -> Parse, input: string, from: nat, searchAfter: Option<string>): Value {
    var fields := Skeleton(SimpleQs(input)).fields;
    match searchAfter
    case Some(cursor) => Obj(fields["search_after" := CursorField(parse(cursor))])
    case None => Obj(fields["from" := Num(Int(from))])
  }

  /** `build_search_query`: compile the text, start from the skeleton, then
      insert one paging field into the object. */
  method BuildSearchQuery(parse: string -> Parse, input: string, from: nat, searchAfter: Option<string>)
    returns (body: Value)
    ensures body == RequestBody(parse, input, from, searchAfter)
  {
    var queryString := ToSimpleQs(input);
    body := Skeleton(queryString);
    var obj := body.fields;
    if searchAfter.Some? {
      var cursor := searchAfter.value;
      obj := obj["search_after" := CursorField(parse(cursor))];
    } else {
      obj := obj["from" := Num(Int(from))];
    }
    body := Obj(obj);
  }

  /** The compiled query string inside a request body, if there is one. */
  function QueryText(body: Value): Option<string> {
    AsStr(Index(Index(Index(body, "query"), "simple_query_string"), "query"))
  }

  /** A body carries `search_after` or `from`, never both and never neither:
      `search_after` (the parsed cursor, or `null` when it does not parse)
      exactly when a cursor is given, `from` otherwise. */
  lemma PagingIsExclusive(parse: string -> Parse, input: string, from: nat, searchAfter: Option<string>)
    ensures var body := RequestBody(parse, input, from, searchAfter);
      && body.Obj?
      && ("search_after" in body.fields <==> searchAfter.Some?)
      && ("from" in body.fields <==> searchAfter.None?)
      && (searchAfter.None? ==> body.fields["from"] == Num(Int(from)))
      && (searchAfter.Some? && parse(searchAfter.value).Unparseable? ==> body.fields["search_after"] == Null)
      && (searchAfter.Some? && parse(searchAfter.value).Parsed? ==>
            body.fields["search_after"] == parse(searchAfter.value).value)
  {
  }

  /** Whatever the paging, the page size is 20, the sort is fixed and the
      query is the compiled input text. */
  lemma FixedRequestShape(parse: string -> Parse, input: string, from: nat, searchAfter: Option<string>)
    ensures var body := RequestBody(parse, input, from, searchAfter);
      && body.Obj?
      && body.fields["size"] == Num(Int(20))
      && body.fields["sort"] == Arr([Order("_score", "desc"), Order("page_created_at", "desc"), Order("_shard_doc", "asc")])
      && body.fields["track_total_hits"] == Bool(false)
      && QueryText(body) == Some(SimpleQs(input))
  {
    var body := RequestBody(parse, input, from, searchAfter);
    var query := Skeleton(SimpleQs(input)).fields["query"];
    assert body.fields["query"] == query;
    assert Index(Index(query, "simple_query_string"), "query") == Str(SimpleQs(input));
  }

  /** Inserting the paging field leaves every skeleton field as it was. */
  lemma PagingTouchesNothingElse(parse: string -> Parse, input: string, from: nat, searchAfter: Option<string>)
    ensures var body := RequestBody(parse, input, from, searchAfter);
      body.Obj? && body.fields - {"from", "search_after"} == Skeleton(SimpleQs(input)).fields
  {
    var fields := Skeleton(SimpleQs(input)).fields;
    var key := if searchAfter.Some? then "search_after" else "from";
    var v := RequestBody(parse, input, from, searchAfter).fields[key];
    assert RequestBody(parse, input, from, searchAfter).fields == fields[key := v];
    InsertThenRemove(fields, key, v, {"from", "search_after"});
  }

  lemma InsertThenRemove<K, V>(m: map<K, V>, k: K, v: V, ks: set<K>)
    requires k in ks && ks !! m.Keys
    ensures m[k := v] - ks == m
  {
  }
}

=== FILE: Wrappers.dfy ===
/** Rust's `Option`, used for the std parsers and the JSON accessors. */
module Wrappers {

  datatype Option<+T> = None | Some(value: T) {

    /** `unwrap_or(default)` */
    function GetOr(default: T): T {
      match this
      case Some(v) => v
      case None => default
    }
  }
}
